=== FILE: README.md ===
# Learner dashboard: enrollment state, next-lesson resolution and auth form guards

This project models, in Dafny, the decision logic of a Next.js learner
dashboard backed by a relational store:

- **Enrollment store and state machine** (`enrollment_store.dfy`, module
  `EnrollmentStore`). The course catalog and the enrollment table are
  modelled as sequences. The table has a unique key on (user, course) and a
  foreign key to the catalog. Enroll inserts a `not_started` record; a
  duplicate fails with SQLSTATE 23505 (`unique_violation`, Appendix A of the
  PostgreSQL manual). Start reads the record with `.single()` and writes
  `ongoing` only when it read `not_started`. Store failures are an explicit
  `fault` parameter; for start one such parameter stands for a failure of
  either the read or the update.
- **Next-lesson resolver** (`next_lesson.dfy`, module `NextLesson`). It
  picks the first lesson, in the order the lessons query returns, that the
  user has not completed. When all are completed it falls back to the first
  lesson. It gives nothing when there are no modules or no lessons.
- **Dashboard** (`dashboard.dfy`, module `Dashboard`). It covers `loadData`
  (the enrolled/available partition), `handleEnroll`, `handleGetStarted`,
  and the local list update after a successful start.
- **Course card** (`course_card.dfy`, module `CourseCard`). This is the badge
  and button logic for a status and the callbacks present, plus the
  in-flight flags of the two click handlers.
- **Sign-up and sign-in forms** (`signup.dfy`, `signin.dfy`). These cover the
  submit guards, the mapping of the auth service's reply to messages, the
  password indicators and the resend-confirmation action.

Shared types are in `domain.dfy` (the `Status` enum, `Course`,
`EnrolledCourse`). `wrappers.dfy` holds `Option` and `Result`.

Every query result and every auth-service reply is a parameter, except for
the store operations. These are the insert of "enroll", the `.single()` read
and the status update of "get started", and the reload after enrolling. They
compute their results from the modelled `Store`, and the first three take a
`fault` parameter for a failure (see "## Left out"). `None` stands for a failed or `null` response. A reply datatype stands for any
answer the service may give. The session is an `Option<UserId>`, where
`None` means no signed-in user. Navigation is a returned value, never an
effect.

In a few places the code behaves in ways a reader might not expect. The
model follows the code:

- Lessons are ordered by each lesson's own `order_index` across all modules,
  not by (module order, lesson order). The resolver takes the fetched
  sequence as given.
- A failed or `null` progress query is read as "nothing completed", so the
  user is sent to the first lesson. Navigation also goes ahead when the
  status update failed. It is not "fail closed" at every stage.
- An insert failure other than 23505 is not shown to the user. The handler
  just returns without reloading.
- When the enrollments query fails but the catalog query succeeds, the
  enrolled list keeps its old contents and every course is listed as
  available. `Dashboard.LoadData` states this case.
- Start needs `.single()` to find exactly one record. With none, or with
  several, it writes nothing and still resolves the next lesson.
- The final id is chosen as `nextLesson?.id || allLessons[0].id`, and the
  user is navigated only if that id is truthy. So a blank id counts as
  missing. `NextLesson.Resolve` keeps this, and its full characterisation
  assumes no blank lesson ids (`NoBlankIds`).

## Model

| member | source | states |
|---|---|---|
| `EnrollmentStore.Insert` | app/dashboard/page.tsx:29-37 | The insert succeeds exactly when there is no store fault, no record for (user, course) exists and the course is in the catalog. After it, that key holds exactly one record with the inserted status and every other key is untouched. A duplicate fails with 23505, and 23505 arises only from a duplicate or an injected fault. Both store constraints are kept. |
| `EnrollmentStore.SelectSingle` | app/dashboard/page.tsx:46-51 | The `.single()` read yields a status exactly when one record matches, and that status is the record's. |
| `EnrollmentStore.SetStatus` | app/dashboard/page.tsx:54-58 | The update keeps the table's length and every record's key. It sets the status of exactly the (user, course) records, and the rest keep theirs. |
| `EnrollmentStore.SetStatusEffect` | app/dashboard/page.tsx:54-58 | After the update, the (user, course) records keep their number and all read the new status. Every other key reads as before, and uniqueness of keys is preserved. |
| `EnrollmentStore.Start` | app/dashboard/page.tsx:46-65 | It writes exactly when the read gave `not_started` and the update did not fail, and then the record reads `ongoing`. Otherwise the store is unchanged. Other keys are never touched, status never moves backwards, and the constraints are kept. |
| `EnrollmentStore.StartIsIdempotent` | app/dashboard/page.tsx:53-58 | A second start after a successful one changes nothing, whatever the second update reports. |
| `EnrollmentStore.FetchEnrollments` | app/dashboard/page.tsx:113-116 | Every joined row carries a catalog course whose id is the row's course id, and a status the user really has for that course. |
| `EnrollmentStore.FetchEnrollmentsCovers` | app/dashboard/page.tsx:113-116 | Every enrollment record of the user appears among the joined rows with its course id and status. |
| `EnrollmentStore.FetchIsPointwise` | app/dashboard/page.tsx:113-116 | The fetch returns exactly one joined row per record of the user, in table order, carrying that record's course id and status. |
| `EnrollmentStore.FetchStatusesAgree` | app/dashboard/page.tsx:113-116 | The joined rows for a course carry exactly the statuses of the user's records for that course, in order. |
| `EnrollmentStore.FetchSingleRow` | app/dashboard/page.tsx:113-116 | With a single record for (user, course), exactly one joined row names that course, and it has the record's status. |
| `EnrollmentStore.FetchAfterSetStatus` | app/dashboard/page.tsx:54-58 | After an update of (user, course), the joined rows are the old ones with only the rows for that course changed to the new status. |
| `NextLesson.FirstIncomplete` | app/dashboard/page.tsx:98 | It returns the index of a lesson not completed, with all earlier lessons completed, or nothing exactly when every lesson is completed. |
| `NextLesson.CompletedSet` | app/dashboard/page.tsx:96 | The completed set holds exactly the ids the progress query returned, or is empty when it failed or returned `null`. |
| `NextLesson.Resolve` | app/dashboard/page.tsx:67-103 | There is no target with no modules or no lessons. Any target is a fetched, non-blank lesson. With non-blank ids it is the first incomplete lesson, or the first lesson when all are completed. A failed progress query sends the user to the first lesson. |
| `NextLesson.ResolvePrefersOpenLessons` | app/dashboard/page.tsx:96-99 | While some lesson is open, the target is an open lesson, namely the first open one. |
| `NextLesson.CompletingTargetAdvances` | app/dashboard/page.tsx:96-99 | Completing the chosen lesson moves the next choice strictly later in the sequence, or leaves no open lesson. |
| `NextLesson.FirstIncompleteIgnoresOtherLessons` | app/dashboard/page.tsx:89-98 | Only completion records of the fetched lessons affect the choice. |
| `NextLesson.ResolveIgnoresOtherLessons` | app/dashboard/page.tsx:89-99 | Restricting the progress query to the course's lesson ids does not change the target. |
| `NextLesson.WorkedExample` | app/dashboard/page.tsx:67-103 | Take modules M1, M2 and lessons L1, L2 (in M1) and L3 (in M2) with lesson indices 1, 2, 3. With L1 done the target is L2. With all done it is L1. With no lessons there is no target. If L3 is lesson 1 of M2 the query returns L1, L3, L2, and with L1 done the target is L3. |
| `Dashboard.Available` | app/dashboard/page.tsx:134-135 | A course is available exactly when it is in the catalog and its id is not an enrolled id. |
| `Dashboard.AvailableKeepsOrder` | app/dashboard/page.tsx:135 | The filter distributes over concatenation, so it keeps catalog order. |
| `Dashboard.LoadData` | app/dashboard/page.tsx:106-140 | With no session it redirects to sign-in and changes nothing. Otherwise loading stops. The enrolled list has one entry per enrollment row, with course fields and status copied, or stays as it was when that query failed. A course is available exactly when it is in the fetched catalog and no enrollment row names it. |
| `Dashboard.PartitionIsExact` | app/dashboard/page.tsx:123-136 | With both queries answered, no course id is both enrolled and available, and every catalog course is in exactly one list. |
| `Dashboard.LoadDataIsIdempotent` | app/dashboard/page.tsx:106-140 | Loading twice with the same query results gives the same page as loading once. |
| `Dashboard.Reload` | app/dashboard/page.tsx:106-121 | Loading from the store redirects exactly when there is no session, and lists only catalog courses as available. |
| `Dashboard.UnenrolledCourseIsAvailable` | app/dashboard/page.tsx:123-136 | A catalog course the user has no record for is listed as available and not as enrolled. |
| `Dashboard.EnrolledCourseIsListed` | app/dashboard/page.tsx:123-136 | A course with exactly one record has exactly one enrolled entry, which carries that record's status, and it is not listed as available. |
| `Dashboard.HandleEnroll` | app/dashboard/page.tsx:25-40 | With no session nothing happens. Otherwise it reloads exactly when the insert succeeds or fails with 23505. Any other failure, including the foreign-key error 23503 for a course missing from the catalog, returns with store and page unchanged. With no fault and a catalog course it reloads and the store holds exactly one record for (user, course): a new `not_started` one, or the old one with the store unchanged on a duplicate. An injected 23505 reloads over the unchanged store. The store stays valid. |
| `Dashboard.EnrollTwice` | app/dashboard/page.tsx:25-40 | Enrolling twice leaves one `not_started` record. The second call still reloads, and leaves both the store and the page as the first call left them. |
| `Dashboard.EnrollThenDashboard` | app/dashboard/page.tsx:25-40 | After enrolling in a catalog course, the reloaded page lists it as enrolled and `not_started`, and not as available. |
| `Dashboard.MarkOngoing` | app/dashboard/page.tsx:60-63 | The local update keeps the list's length. It turns the entries with the started course's id to `ongoing` and leaves every other entry identical. |
| `Dashboard.MarkOngoingIsIdempotent` | app/dashboard/page.tsx:61-63 | Applying the local update twice equals applying it once. |
| `Dashboard.LocalUpdateMatchesReload` | app/dashboard/page.tsx:54-63 | The local update of the enrolled list equals what a full reload after the store's update would show. |
| `Dashboard.HandleGetStarted` | app/dashboard/page.tsx:42-104 | With no session nothing happens and there is no navigation. Otherwise the store takes the conditional start step, and the local list is updated only if the write succeeded. The navigation target is the resolver's, whatever the step did. |
| `Dashboard.GetStartedKeepsViewInSync` | app/dashboard/page.tsx:53-63 | If the enrolled list agreed with the store before "get started", it still agrees afterwards. |
| `CourseCard.Label` | components/CourseCard.tsx:48-53 | Each status maps to its badge text: "Not started", "Ongoing", "Completed", "Certified". |
| `CourseCard.LabelsAreDistinct` | components/CourseCard.tsx:48-53 | The label map gives each of the four statuses its own text. |
| `CourseCard.Render` | components/CourseCard.tsx:62-101 | The badge shows exactly for a defined status other than `not_started`, with its label. "Get Started" shows exactly for `not_started` with `onGetStarted`. "Continue" shows exactly for `ongoing` with `onGetStarted`, so never both. "Enroll now" shows exactly when `onEnroll` is given. Each button is disabled and relabelled while its flag is set. |
| `CourseCard.FinishedCourseOffersNoStart` | components/CourseCard.tsx:66-90 | A completed or certified course offers neither start button and shows its badge. |
| `CourseCard.ClickEnroll` | components/CourseCard.tsx:28-36 | Without `onEnroll` it does nothing. Otherwise it calls `onEnroll(course.id)` with `enrolling` set during the call and cleared afterwards, even when the callback throws. The other flag is untouched. |
| `CourseCard.ClickGetStarted` | components/CourseCard.tsx:38-46 | The same as `ClickEnroll`, for `onGetStarted` and `starting`. |
| `CourseCard.EnrollButtonBusyOnlyDuringCall` | components/CourseCard.tsx:91-99 | During the enroll call the button reads "Enrolling..." and is disabled. Afterwards it reads "Enroll now" and is enabled. |
| `CourseCard.StartButtonBusyOnlyDuringCall` | components/CourseCard.tsx:73-81 | During the start call "Get Started" reads "Starting..." and is disabled. Afterwards it is enabled again. |
| `CourseCard.ContinueButtonBusyOnlyDuringCall` | components/CourseCard.tsx:82-90 | During the call "Continue" reads "Loading..." and is disabled. Afterwards it is enabled again. |
| `SignUp.Submit` | app/signup/page.tsx:39-100 | The service is called exactly when all four fields are filled and the passwords agree. An empty field gives "Please fill all fields." ahead of the mismatch check. Each reply maps to its message, with loading cleared except on the redirect. The redirect happens exactly on a success with a stored session. An error and an info message never show together. |
| `SignUp.MatchShown` | app/signup/page.tsx:168-170 | "Passwords match" shows exactly when confirm is non-empty and equals the password. |
| `SignUp.MatchIndicatorAgreesWithSubmit` | app/signup/page.tsx:168-170 | With the other fields filled, "Passwords match" shows exactly when a submit would call the service. |
| `SignUp.OnPasswordsChanged` | app/signup/page.tsx:28-37 | A change clears `idleMismatch`. A mismatch check is scheduled exactly when confirm is non-empty. |
| `SignUp.IdleCheck` | app/signup/page.tsx:34 | The scheduled check flags a mismatch exactly when "Passwords match" would not show for a non-empty confirm. |
| `SignUp.MismatchShown` | app/signup/page.tsx:171-173 | "Passwords don't match" shows exactly when confirm is non-empty and the idle-mismatch flag is set. |
| `SignUp.IndicatorsExclusive` | app/signup/page.tsx:167-173 | Once a change's effect has run, "Passwords match" and "Passwords don't match" never show together. With confirm non-empty and the check fired, exactly one of them shows. |
| `SignIn.Contains` | app/signin/page.tsx:37 | `includes` holds exactly when the fragment occurs at some position of the message. |
| `SignIn.IsUnconfirmed` | app/signin/page.tsx:37 | An error message means an unconfirmed address exactly when "Email not confirmed" or "email_not_confirmed" occurs in it at some position. |
| `SignIn.Submit` | app/signin/page.tsx:18-62 | The service is called exactly when both fields are filled, else the page shows "Please fill all fields.". An unconfirmed-address error gives the confirm-email message and offers resend. Any other error passes its message through. A missing session gives "Sign in failed. Please try again.". Loading is cleared on every path that calls the service, other than the redirect. The empty-field check leaves it as it was. Resend is only ever switched on by an unconfirmed-address error. |
| `SignIn.Resend` | app/signin/page.tsx:64-91 | An empty email gives "Please enter your email address first." and no call, with nothing else changed. Otherwise the call runs with `resending` set. Success shows the info message and hides resend, and each failure shows its message. `resending` is false afterwards. |
| `SignIn.UnconfirmedSpellingsRecognised` | app/signin/page.tsx:37 | A message containing "Email not confirmed" or "email_not_confirmed" anywhere is classified as unconfirmed. |
| `SignIn.UnconfirmedThenResend` | app/signin/page.tsx:36-90 | After an unconfirmed-address error, resend is offered. A successful resend withdraws it, shows the info message and leaves nothing busy. |

## Left out

- lib/supabaseClient.ts: environment reading and client construction are I/O setup with no decision logic.
- app/layout.tsx, app/page.tsx and components/Hero.tsx: static markup and animation.
- app/lesson/[id]/page.tsx is not part of this model. This includes the lesson-completion upsert.
- The auth-state subscription and its `mounted` flag (app/dashboard/page.tsx:142-168) are left out. They only decide when `loadData` runs again, which is concurrency.
- The `setTimeout` delays before redirecting (signup 700 ms, signin 300 ms) are left out. The redirect is a returned flag.
- The 1-second delay of the idle-mismatch check is left out. Only the values it sets are modelled.
- The read-then-write race between two sessions starting the same course is left out, because the model is sequential.
- The ordering semantics of the queries are left out. The catalog sequence is taken to be in creation order, and the lessons sequence is taken to be in the query's order.
- Router navigation is a returned value (`Option<LessonId>` or a redirect flag), not an effect.
- `statusColors`, CSS classes and the static texts of the page (headings, the empty-state panel, the sign-out button) are left out.
- The profile update after sign-up (app/signup/page.tsx:72-77) is left out. Its result is ignored and it changes no message or flag.
- An exception thrown by a store query inside the dashboard handlers is left out. The client reports errors as values, and those are modelled.
- Dashboard.HandleEnroll: the reload is taken to see the same session as the insert. The store's two constraints are required to hold before the call, because the database always keeps them.
- Dashboard.HandleEnroll: the reload's two queries (app/dashboard/page.tsx:113-121) are taken to succeed, because they read the modelled store directly. The source also does not await this reload; the model completes it before returning.
- EnrollmentStore.Start: a failure of the `.single()` read is folded into `fault`, since a failed read and a failed update both leave the record unwritten.
- Dashboard.LocalUpdateMatchesReload: the enrollments query has no `order` clause, so the database promises no row order. The model takes the rows to come back in a fixed table order that an update leaves unchanged. Without that, only the multiset of entries would be promised equal.
- Dashboard.GetStartedKeepsViewInSync: the same row-order assumption as `Dashboard.LocalUpdateMatchesReload`.
- Dashboard.HandleGetStarted: the lessons, modules and progress responses are parameters and are not derived from the store.
- EnrollmentStore.FetchEnrollments: requires the foreign key from enrollment to course. The store guarantees this, so the crash on a missing joined course is not modelled.
- SignUp.Submit: an exception without a message is modelled as one with an empty message. The thrown value itself is not modelled.
- SignUp.IndicatorsExclusive: the render between a change of the password or confirm field and the run of its effect is not modelled. That render still shows the old `idleMismatch` and can show both indicators, for example right after confirm is corrected to match.
- SignUp.Submit: the browser's constraint validation before `handleSubmit` runs (`required`, `minLength={6}`, `type="email"`) is not modelled. On the page, "Please fill all fields." shows only when that validation is bypassed, and a password shorter than 6 characters never reaches the service.
- SignIn.Submit: an exception without a message is modelled as one with an empty message.
- SignIn.Submit: the browser's constraint validation (`required`, `type="email"`) is not modelled, as for `SignUp.Submit`.

=== FILE: course_card.dfy ===
/** The course card: which badge and buttons it shows for an optional
    enrollment status and the callbacks it was given, and how its two click
    handlers keep their in-flight flags. A callback is modelled by whether it
    is present and, when it runs, whether it throws. */
module CourseCard {
  import opened Wrappers
  import opened Domain

  /** The badge text of each status. */
  function Label(s: Status): string
  {
    match s
    case NotStarted => "Not started"
    case Ongoing => "Ongoing"
    case Completed => "Completed"
    case Certified => "Certified"
  }

  /** Every status has its own label. */
  lemma LabelsAreDistinct(a: Status, b: Status)
    ensures Label(a) == Label(b) <==> a == b
  {
  }

  datatype Button = Button(text: string, disabled: bool)

  /** What the card shows besides the course's title and description. */
  datatype Card = Card(badge: Option<string>, startButton: Option<Button>,
                       continueButton: Option<Button>, enrollButton: Option<Button>)

  datatype Props = Props(course: Course, status: Option<Status>, hasOnEnroll: bool, hasOnGetStarted: bool)

  /** The in-flight flags: an enroll call and a start call outstanding. */
  datatype Flags = Flags(enrolling: bool, starting: bool)

  function Render(p: Props, f: Flags): (r: Card)
    ensures r.badge.Some? <==> p.status.Some? && p.status.value != NotStarted
    ensures r.badge.Some? ==> r.badge.value == Label(p.status.value)
    ensures r.startButton.Some? <==> p.status == Some(NotStarted) && p.hasOnGetStarted
    ensures r.continueButton.Some? <==> p.status == Some(Ongoing) && p.hasOnGetStarted
    ensures r.enrollButton.Some? <==> p.hasOnEnroll
    ensures !(r.startButton.Some? && r.continueButton.Some?)
    ensures r.startButton.Some? ==>
              r.startButton.value == Button(if f.starting then "Starting..." else "Get Started", f.starting)
    ensures r.continueButton.Some? ==>
              r.continueButton.value == Button(if f.starting then "Loading..." else "Continue", f.starting)
    ensures r.enrollButton.Some? ==>
              r.enrollButton.value == Button(if f.enrolling then "Enrolling..." else "Enroll now", f.enrolling)
  {
    var badge := if p.status.Some? && p.status.value != NotStarted then Some(Label(p.status.value)) else None;
    var start := if p.status == Some(NotStarted) && p.hasOnGetStarted
                 then Some(Button(if f.starting then "Starting..." else "Get Started", f.starting))
                 else None;
    var cont := if p.status == Some(Ongoing) && p.hasOnGetStarted
                then Some(Button(if f.starting then "Loading..." else "Continue", f.starting))
                else None;
    var enroll := if p.hasOnEnroll
                  then Some(Button(if f.enrolling then "Enrolling..." else "Enroll now", f.enrolling))
                  else None;
    Card(badge, start, cont, enroll)
  }

  /** A completed or certified course offers neither "Get Started" nor
      "Continue", and shows its status badge. */
  lemma FinishedCourseOffersNoStart(p: Props, f: Flags)
    requires p.status == Some(Completed) || p.status == Some(Certified)
    ensures Render(p, f).startButton.None? && Render(p, f).continueButton.None?
    ensures Render(p, f).badge == Some(Label(p.status.value))
  {
  }

  /** One run of a click handler: the call it made (if any), the flags while
      the call was outstanding (if any), the flags afterwards, and whether the
      callback's exception escaped. */
  datatype Run = Run(called: Option<CourseId>, during: Option<Flags>, after: Flags, rethrown: bool)

  /** `handleEnroll`: without `onEnroll`, nothing; otherwise set `enrolling`,
      call `onEnroll(course.id)`, and clear `enrolling` in `finally`. */
  function ClickEnroll(p: Props, f: Flags, throws: bool): (r: Run)
    ensures !p.hasOnEnroll ==> r == Run(None, None, f, false)
    ensures p.hasOnEnroll ==> r.called == Some(p.course.id) && r.rethrown == throws
    ensures p.hasOnEnroll ==> r.during == Some(f.(enrolling := true))
    ensures p.hasOnEnroll ==> !r.after.enrolling
    ensures r.after.starting == f.starting
  {
    if !p.hasOnEnroll then Run(None, None, f, false)
    else Run(Some(p.course.id), Some(f.(enrolling := true)), f.(enrolling := false), throws)
  }

  /** `handleGetStarted`: the same shape with `onGetStarted` and `starting`. */
  function ClickGetStarted(p: Props, f: Flags, throws: bool): (r: Run)
    ensures !p.hasOnGetStarted ==> r == Run(None, None, f, false)
    ensures p.hasOnGetStarted ==> r.called == Some(p.course.id) && r.rethrown == throws
    ensures p.hasOnGetStarted ==> r.during == Some(f.(starting := true))
    ensures p.hasOnGetStarted ==> !r.after.starting
    ensures r.after.enrolling == f.enrolling
  {
    if !p.hasOnGetStarted then Run(None, None, f, false)
    else Run(Some(p.course.id), Some(f.(starting := true)), f.(starting := false), throws)
  }

  /** While its call is outstanding the clicked button is disabled and shows
      its busy label; afterwards it is enabled again, whether or not the
      callback threw. */
  lemma EnrollButtonBusyOnlyDuringCall(p: Props, f: Flags, throws: bool)
    requires p.hasOnEnroll
    ensures var r := ClickEnroll(p, f, throws);
            Render(p, r.during.value).enrollButton == Some(Button("Enrolling...", true)) &&
            Render(p, r.after).enrollButton == Some(Button("Enroll now", false))
  {
  }

  lemma StartButtonBusyOnlyDuringCall(p: Props, f: Flags, throws: bool)
    requires p.hasOnGetStarted && p.status == Some(NotStarted)
    ensures var r := ClickGetStarted(p, f, throws);
            Render(p, r.during.value).startButton == Some(Button("Starting...", true)) &&
            Render(p, r.after).startButton == Some(Button("Get Started", false))
  {
  }

  lemma ContinueButtonBusyOnlyDuringCall(p: Props, f: Flags, throws: bool)
    requires p.hasOnGetStarted && p.status == Some(Ongoing)
    ensures var r := ClickGetStarted(p, f, throws);
            Render(p, r.during.value).continueButton == Some(Button("Loading...", true)) &&
            Render(p, r.after).continueButton == Some(Button("Continue", false))
  {
  }
}

=== FILE: dashboard.dfy ===
/** The dashboard page: loading and partitioning the user's courses, and the
    two actions its course cards trigger, "enroll" and "get started". The
    session is an explicit `Option<UserId>` (`None`: no signed-in user), each
    query result is an input or is read from the abstract `Store`, and a
    navigation is returned as a value. */
module Dashboard {
  import opened Wrappers
  import opened Domain
  import opened EnrollmentStore
  import NextLesson

  /** The page's state: the loading flag, the enrolled list and the
      available list. */
  datatype View = View(loading: bool, enrolled: seq<EnrolledCourse>, available: seq<Course>)

  datatype LoadResult = LoadResult(view: View, redirectToSignIn: bool)

  /** One enrolled entry per joined enrollment row. */
  function ToEnrolled(rows: seq<EnrollmentRow>): seq<EnrolledCourse>
  {
    seq(|rows|, k requires 0 <= k < |rows| =>
      EnrolledCourse(rows[k].course.id, rows[k].course.title, rows[k].course.description, rows[k].status))
  }

  /** The course ids the enrollment rows mention. */
  function EnrolledIds(rows: seq<EnrollmentRow>): set<CourseId>
  {
    set k | 0 <= k < |rows| :: rows[k].courseId
  }

  /** A joined row whose course is the course its enrollment names. */
  predicate WellJoined(rows: seq<EnrollmentRow>)
  {
    forall k :: 0 <= k < |rows| ==> rows[k].course.id == rows[k].courseId
  }

  /** The catalog courses whose id is not among `ids`, in catalog order. */
  function Available(courses: seq<Course>, ids: set<CourseId>): (r: seq<Course>)
    ensures |r| <= |courses|
    ensures forall c :: c in r <==> c in courses && c.id !in ids
  {
    if |courses| == 0 then []
    else
      var n := |courses| - 1;
      assert courses == courses[..n] + [courses[n]];
      Available(courses[..n], ids) + (if courses[n].id in ids then [] else [courses[n]])
  }

  /** Filtering keeps catalog order: it distributes over concatenation. */
  lemma {:induction false} AvailableKeepsOrder(a: seq<Course>, b: seq<Course>, ids: set<CourseId>)
    ensures Available(a + b, ids) == Available(a, ids) + Available(b, ids)
  {
    if |b| > 0 {
      var n := |b| - 1;
      assert (a + b)[..|a| + n] == a + b[..n];
      AvailableKeepsOrder(a, b[..n], ids);
    } else {
      assert a + b == a;
    }
  }

  /** `loadData`: with no session, redirect to sign-in and change nothing;
      otherwise rebuild each list whose query returned data and keep the
      other as it was, and stop loading. */
  function LoadData(v: View, session: Option<UserId>, enrollments: Option<seq<EnrollmentRow>>,
                    courses: Option<seq<Course>>): (r: LoadResult)
    ensures r.redirectToSignIn <==> session.None?
    ensures session.None? ==> r.view == v
    ensures session.Some? ==> !r.view.loading
    ensures session.Some? && enrollments.Some? ==>
              |r.view.enrolled| == |enrollments.value| &&
              forall k :: 0 <= k < |enrollments.value| ==>
                r.view.enrolled[k].status == enrollments.value[k].status &&
                r.view.enrolled[k].id == enrollments.value[k].course.id &&
                r.view.enrolled[k].title == enrollments.value[k].course.title &&
                r.view.enrolled[k].description == enrollments.value[k].course.description
    ensures session.Some? && enrollments.None? ==> r.view.enrolled == v.enrolled
    ensures session.Some? && courses.Some? ==>
              forall c :: c in r.view.available <==>
                c in courses.value &&
                (enrollments.None? || forall k :: 0 <= k < |enrollments.value| ==> enrollments.value[k].courseId != c.id)
    ensures session.Some? && courses.None? ==> r.view.available == v.available
  {
    if session.None? then LoadResult(v, true)
    else
      var enrolled := if enrollments.Some? then ToEnrolled(enrollments.value) else v.enrolled;
      var ids := if enrollments.Some? then EnrolledIds(enrollments.value) else {};
      var available := if courses.Some? then Available(courses.value, ids) else v.available;
      LoadResult(View(false, enrolled, available), false)
  }

  /** With both queries answered and every row joined to its own course, the
      two lists partition the catalog: no course id is in both, and every
      catalog course is in exactly one of them. */
  lemma PartitionIsExact(v: View, u: UserId, rows: seq<EnrollmentRow>, courses: seq<Course>)
    requires WellJoined(rows)
    ensures var view := LoadData(v, Some(u), Some(rows), Some(courses)).view;
            (forall c, e :: c in view.available && e in view.enrolled ==> c.id != e.id) &&
            (forall c :: c in courses ==>
               (c in view.available <==> !(exists k :: 0 <= k < |view.enrolled| && view.enrolled[k].id == c.id)))
  {
  }

  /** Reloading twice with nothing changed in between shows the same page. */
  lemma LoadDataIsIdempotent(v: View, session: Option<UserId>, enrollments: Option<seq<EnrollmentRow>>,
                             courses: Option<seq<Course>>)
    ensures var once := LoadData(v, session, enrollments, courses);
            LoadData(once.view, session, enrollments, courses) == once
  {
  }

  /** `loadData` against the store: the enrollments query joins the user's
      records with their courses, and the catalog comes in creation order. */
  function Reload(s: Store, v: View, session: Option<UserId>): (r: LoadResult)
    requires ForeignKeys(s)
    ensures r.redirectToSignIn <==> session.None?
    ensures session.None? ==> r.view == v
    ensures session.Some? ==> forall c :: c in r.view.available ==> c in s.courses
  {
    match session
    case None => LoadData(v, None, None, None)
    case Some(u) => LoadData(v, session, Some(FetchEnrollments(s.courses, s.enrollments, u)), Some(s.courses))
  }

  /** A course the user has no record for is listed as available and not as
      enrolled. */
  lemma UnenrolledCourseIsAvailable(s: Store, v: View, u: UserId, c: Course)
    requires ForeignKeys(s) && c in s.courses && Count(s.enrollments, u, c.id) == 0
    ensures c in Reload(s, v, Some(u)).view.available
    ensures forall e :: e in Reload(s, v, Some(u)).view.enrolled ==> e.id != c.id
  {
  }

  /** A course named by exactly one joined row has exactly one enrolled entry. */
  lemma ListedOnce(rows: seq<EnrollmentRow>, c: CourseId, st: Status, k: int)
    requires WellJoined(rows)
    requires 0 <= k < |rows| && rows[k].courseId == c && rows[k].status == st
    requires forall j :: 0 <= j < |rows| && rows[j].courseId == c ==> j == k
    ensures var enrolled := ToEnrolled(rows);
            k < |enrolled| && enrolled[k].id == c && enrolled[k].status == st &&
            forall j :: 0 <= j < |enrolled| && enrolled[j].id == c ==> j == k
  {
  }

  /** A course the user has exactly one record for is listed as enrolled
      exactly once, with the record's status, and not as available. */
  lemma EnrolledCourseIsListed(s: Store, v: View, u: UserId, c: CourseId, st: Status)
    requires ForeignKeys(s) && StatusesOf(s.enrollments, u, c) == [st]
    ensures var enrolled := Reload(s, v, Some(u)).view.enrolled;
            exists k :: 0 <= k < |enrolled| && enrolled[k].id == c && enrolled[k].status == st &&
                        forall j :: 0 <= j < |enrolled| && enrolled[j].id == c ==> j == k
    ensures forall a :: a in Reload(s, v, Some(u)).view.available ==> a.id != c
  {
    var rows := FetchEnrollments(s.courses, s.enrollments, u);
    FetchSingleRow(s.courses, s.enrollments, u, c, st);
    var k :| 0 <= k < |rows| && rows[k].courseId == c && rows[k].status == st &&
             forall j :: 0 <= j < |rows| && rows[j].courseId == c ==> j == k;
    ListedOnce(rows, c, st, k);
    assert Reload(s, v, Some(u)).view.enrolled == ToEnrolled(rows);
    assert c in EnrolledIds(rows);
  }

  datatype EnrollOutcome = EnrollOutcome(store: Store, view: View, reloaded: bool)

  /** `handleEnroll`: with a session, insert a `not_started` record; reload
      unless the insert failed with an error other than the unique-key
      violation. */
  function HandleEnroll(s: Store, v: View, session: Option<UserId>, courseId: CourseId,
                        fault: Option<ErrorCode>): (r: EnrollOutcome)
    requires Valid(s)
    ensures Valid(r.store)
    ensures session.None? ==> r == EnrollOutcome(s, v, false)
    ensures !r.reloaded ==> r.store == s && r.view == v
    ensures r.reloaded ==> r.view == Reload(r.store, v, session).view
    ensures session.Some? && fault.Some? && fault.value != UniqueViolation ==> !r.reloaded
    ensures session.Some? ==>
              (r.reloaded <==> (var i := Insert(s, Enrollment(session.value, courseId, NotStarted), fault);
                                i.Ok? || i.error == UniqueViolation))
    ensures session.Some? && fault.None? && Count(s.enrollments, session.value, courseId) == 0 &&
            !HasCourse(s.courses, courseId) ==>
              !r.reloaded && r.store == s
    ensures session.Some? && fault == Some(UniqueViolation) ==> r.reloaded && r.store == s
    ensures session.Some? && fault.None? && HasCourse(s.courses, courseId) ==>
              r.reloaded && Count(r.store.enrollments, session.value, courseId) == 1
    ensures session.Some? && fault.None? && Count(s.enrollments, session.value, courseId) == 0 &&
            HasCourse(s.courses, courseId) ==>
              SelectSingle(r.store.enrollments, session.value, courseId) == Some(NotStarted)
    ensures session.Some? && fault.None? && Count(s.enrollments, session.value, courseId) > 0 ==>
              r.reloaded && r.store == s
  {
    match session
    case None => EnrollOutcome(s, v, false)
    case Some(u) =>
      match Insert(s, Enrollment(u, courseId, NotStarted), fault)
      case Ok(s') => EnrollOutcome(s', Reload(s', v, session).view, true)
      case Err(code) =>
        if code != UniqueViolation then EnrollOutcome(s, v, false)
        else EnrollOutcome(s, Reload(s, v, session).view, true)
  }

  /** Enrolling twice in the same course leaves one `not_started` record and
      reports no error the second time. */
  lemma EnrollTwice(s: Store, v: View, u: UserId, c: CourseId)
    requires Valid(s) && Count(s.enrollments, u, c) == 0 && HasCourse(s.courses, c)
    ensures var first := HandleEnroll(s, v, Some(u), c, None);
            var second := HandleEnroll(first.store, first.view, Some(u), c, None);
            second.reloaded && second.store == first.store && second.view == first.view &&
            SelectSingle(second.store.enrollments, u, c) == Some(NotStarted)
  {
  }

  /** After enrolling in a catalog course, the dashboard lists it as enrolled
      and not started, and no longer as available. */
  lemma EnrollThenDashboard(s: Store, v: View, u: UserId, c: CourseId)
    requires Valid(s) && Count(s.enrollments, u, c) == 0 && HasCourse(s.courses, c)
    ensures var after := HandleEnroll(s, v, Some(u), c, None).view;
            (exists e :: e in after.enrolled && e.id == c && e.status == NotStarted) &&
            (forall a :: a in after.available ==> a.id != c)
  {
    var r := HandleEnroll(s, v, Some(u), c, None);
    EnrolledCourseIsListed(r.store, v, u, c, NotStarted);
  }

  /** The local list update after a successful start: the entry for
      `courseId` turns `ongoing`, nothing else changes. */
  function MarkOngoing(list: seq<EnrolledCourse>, courseId: CourseId): (r: seq<EnrolledCourse>)
    ensures |r| == |list|
    ensures forall k :: 0 <= k < |list| && list[k].id != courseId ==> r[k] == list[k]
    ensures forall k :: 0 <= k < |list| && list[k].id == courseId ==> r[k] == list[k].(status := Ongoing)
  {
    seq(|list|, k requires 0 <= k < |list| => if list[k].id == courseId then list[k].(status := Ongoing) else list[k])
  }

  lemma MarkOngoingIsIdempotent(list: seq<EnrolledCourse>, courseId: CourseId)
    ensures MarkOngoing(MarkOngoing(list, courseId), courseId) == MarkOngoing(list, courseId)
  {
  }

  /** The local update shows exactly what a full reload after the store's
      update would show. */
  lemma LocalUpdateMatchesReload(courses: seq<Course>, rows: seq<Enrollment>, u: UserId, c: CourseId)
    requires forall i :: 0 <= i < |rows| ==> HasCourse(courses, rows[i].course)
    ensures MarkOngoing(ToEnrolled(FetchEnrollments(courses, rows, u)), c)
            == ToEnrolled(FetchEnrollments(courses, SetStatus(rows, u, c, Ongoing), u))
  {
    FetchAfterSetStatus(courses, rows, u, c, Ongoing);
    var before := FetchEnrollments(courses, rows, u);
    forall k | 0 <= k < |before| ensures before[k].course.id == before[k].courseId {
    }
  }

  datatype StartOutcome = StartOutcome(store: Store, view: View, target: Option<LessonId>)

  /** `handleGetStarted`: with a session, take the conditional
      `not_started -> ongoing` step (updating the local list when the write
      succeeds), then resolve the lesson to navigate to, whatever the step did. */
  function HandleGetStarted(s: Store, v: View, session: Option<UserId>, courseId: CourseId,
                            fault: Option<ErrorCode>, modules: Option<seq<ModuleId>>,
                            lessons: Option<seq<LessonId>>, progress: Option<seq<LessonId>>): (r: StartOutcome)
    ensures session.None? ==> r == StartOutcome(s, v, None)
    ensures session.Some? ==> r.store == Start(s, session.value, courseId, fault).store
    ensures session.Some? ==> r.target == NextLesson.Resolve(modules, lessons, progress)
    ensures r.view.loading == v.loading && r.view.available == v.available
    ensures session.Some? && Start(s, session.value, courseId, fault).updated ==>
              r.view.enrolled == MarkOngoing(v.enrolled, courseId)
    ensures session.None? || !Start(s, session.value, courseId, fault).updated ==>
              r.view == v && r.store == s
  {
    match session
    case None => StartOutcome(s, v, None)
    case Some(u) =>
      var step := Start(s, u, courseId, fault);
      var view := if step.updated then v.(enrolled := MarkOngoing(v.enrolled, courseId)) else v;
      StartOutcome(step.store, view, NextLesson.Resolve(modules, lessons, progress))
  }

  /** A view that agrees with the store still agrees after "get started". */
  lemma GetStartedKeepsViewInSync(s: Store, v: View, u: UserId, c: CourseId, fault: Option<ErrorCode>,
                                  modules: Option<seq<ModuleId>>, lessons: Option<seq<LessonId>>,
                                  progress: Option<seq<LessonId>>)
    requires ForeignKeys(s)
    requires v.enrolled == ToEnrolled(FetchEnrollments(s.courses, s.enrollments, u))
    ensures var r := HandleGetStarted(s, v, Some(u), c, fault, modules, lessons, progress);
            ForeignKeys(r.store) &&
            r.view.enrolled == ToEnrolled(FetchEnrollments(r.store.courses, r.store.enrollments, u))
  {
    if Start(s, u, c, fault).updated {
      LocalUpdateMatchesReload(s.courses, s.enrollments, u, c);
    }
  }
}

=== FILE: domain.dfy ===
/** The records shared by the dashboard, the course card and the store:
    identities are strings, and an enrollment status is one of four values. */
module Domain {

  type UserId = string
  type CourseId = string
  type ModuleId = string
  type LessonId = string

  /** The status of a user's enrollment in a course. The declaration order is
      the order of normal progress: not started, ongoing, completed, certified. */
  datatype Status = NotStarted | Ongoing | Completed | Certified

  /** Position of a status along the normal progress order. */
  function Rank(s: Status): nat
  {
    match s
    case NotStarted => 0
    case Ongoing => 1
    case Completed => 2
    case Certified => 3
  }

  /** A course as the catalog lists it. */
  datatype Course = Course(id: CourseId, title: string, description: string)

  /** A course together with the current user's enrollment status: the
      dashboard's `Course & { status }`. */
  datatype EnrolledCourse = EnrolledCourse(id: CourseId, title: string, description: string, status: Status)
}

=== FILE: enrollment_store.dfy ===
/** The part of the remote relational store that the dashboard reads and
    writes: the course catalog and the enrollment table keyed by
    (user, course). The store enforces two integrity constraints, a unique
    key on (user, course) and a foreign key from an enrollment to its course,
    and reports a violation with its SQLSTATE code. A failure the store may
    report for any other reason (network, permissions) is an explicit
    `fault` parameter. */
module EnrollmentStore {
  import opened Wrappers
  import opened Domain

  type ErrorCode = string

  /** SQLSTATE 23505, unique_violation, in Appendix A (PostgreSQL Error
      Codes) of the PostgreSQL manual. */
  const UniqueViolation: ErrorCode := "23505"

  /** SQLSTATE 23503, foreign_key_violation, in the same table. */
  const ForeignKeyViolation: ErrorCode := "23503"

  datatype Enrollment = Enrollment(user: UserId, course: CourseId, status: Status)

  /** The catalog, in ascending creation order, and the enrollment table. */
  datatype Store = Store(courses: seq<Course>, enrollments: seq<Enrollment>)

  /** A row of the enrollments query joined with its course. */
  datatype EnrollmentRow = EnrollmentRow(courseId: CourseId, status: Status, course: Course)

  predicate Matches(e: Enrollment, u: UserId, c: CourseId)
  {
    e.user == u && e.course == c
  }

  /** The statuses of the records keyed (u, c), in table order. */
  function StatusesOf(rows: seq<Enrollment>, u: UserId, c: CourseId): seq<Status>
  {
    if |rows| == 0 then []
    else
      var n := |rows| - 1;
      StatusesOf(rows[..n], u, c) + (if Matches(rows[n], u, c) then [rows[n].status] else [])
  }

  /** Number of records keyed (u, c). */
  function Count(rows: seq<Enrollment>, u: UserId, c: CourseId): nat
  {
    |StatusesOf(rows, u, c)|
  }

  ghost predicate UniqueKeys(rows: seq<Enrollment>)
  {
    forall u, c :: Count(rows, u, c) <= 1
  }

  predicate HasCourse(courses: seq<Course>, id: CourseId)
  {
    exists k :: 0 <= k < |courses| && courses[k].id == id
  }

  ghost predicate ForeignKeys(s: Store)
  {
    forall i :: 0 <= i < |s.enrollments| ==> HasCourse(s.courses, s.enrollments[i].course)
  }

  /** The integrity constraints the store always keeps. */
  ghost predicate Valid(s: Store)
  {
    UniqueKeys(s.enrollments) && ForeignKeys(s)
  }

  lemma StatusesOfAppend(rows: seq<Enrollment>, e: Enrollment)
    ensures forall u, c :: StatusesOf(rows + [e], u, c)
                           == StatusesOf(rows, u, c) + (if Matches(e, u, c) then [e.status] else [])
  {
  }

  /** The insert of one enrollment record. */
  function Insert(s: Store, e: Enrollment, fault: Option<ErrorCode>): (r: Result<Store, ErrorCode>)
    ensures r.Ok? <==> fault.None? && Count(s.enrollments, e.user, e.course) == 0 && HasCourse(s.courses, e.course)
    ensures fault.None? && Count(s.enrollments, e.user, e.course) > 0 ==> r == Err(UniqueViolation)
    ensures r.Err? && r.error == UniqueViolation ==>
              Count(s.enrollments, e.user, e.course) > 0 || fault == Some(UniqueViolation)
    ensures r.Ok? ==> r.value.courses == s.courses
    ensures r.Ok? ==> StatusesOf(r.value.enrollments, e.user, e.course) == [e.status]
    ensures r.Ok? ==> forall u, c :: (u, c) != (e.user, e.course) ==>
              StatusesOf(r.value.enrollments, u, c) == StatusesOf(s.enrollments, u, c)
    ensures Valid(s) && r.Ok? ==> Valid(r.value)
  {
    if fault.Some? then Err(fault.value)
    else if Count(s.enrollments, e.user, e.course) > 0 then Err(UniqueViolation)
    else if !HasCourse(s.courses, e.course) then Err(ForeignKeyViolation)
    else
      AppendFresh(s, e);
      Ok(s.(enrollments := s.enrollments + [e]))
  }

  lemma AppendFresh(s: Store, e: Enrollment)
    requires Count(s.enrollments, e.user, e.course) == 0 && HasCourse(s.courses, e.course)
    ensures StatusesOf(s.enrollments + [e], e.user, e.course) == [e.status]
    ensures forall u, c :: (u, c) != (e.user, e.course) ==>
              StatusesOf(s.enrollments + [e], u, c) == StatusesOf(s.enrollments, u, c)
    ensures Valid(s) ==> Valid(s.(enrollments := s.enrollments + [e]))
  {
    StatusesOfAppend(s.enrollments, e);
    var s' := s.(enrollments := s.enrollments + [e]);
    if Valid(s) {
      forall u, c ensures Count(s'.enrollments, u, c) <= 1 {
        if (u, c) != (e.user, e.course) {
          assert Count(s'.enrollments, u, c) == Count(s.enrollments, u, c);
        }
      }
      forall i | 0 <= i < |s'.enrollments| ensures HasCourse(s'.courses, s'.enrollments[i].course) {
        if i < |s.enrollments| {
          assert s'.enrollments[i] == s.enrollments[i];
        }
      }
    }
  }

  /** The `.single()` read of one record's status: present exactly when one
      record matches, absent when none or several do. */
  function SelectSingle(rows: seq<Enrollment>, u: UserId, c: CourseId): (r: Option<Status>)
    ensures r.Some? <==> Count(rows, u, c) == 1
    ensures r.Some? ==> StatusesOf(rows, u, c) == [r.value]
  {
    var ss := StatusesOf(rows, u, c);
    if |ss| == 1 then Some(ss[0]) else None
  }

  /** The update of the status of every record keyed (u, c). */
  function SetStatus(rows: seq<Enrollment>, u: UserId, c: CourseId, st: Status): (r: seq<Enrollment>)
    ensures |r| == |rows|
    ensures forall i :: 0 <= i < |rows| ==> r[i].user == rows[i].user && r[i].course == rows[i].course
    ensures forall i :: 0 <= i < |rows| ==>
              r[i].status == (if Matches(rows[i], u, c) then st else rows[i].status)
  {
    if |rows| == 0 then []
    else
      var n := |rows| - 1;
      SetStatus(rows[..n], u, c, st) + [if Matches(rows[n], u, c) then rows[n].(status := st) else rows[n]]
  }

  /** The update of a table with one more record: the update of the shorter
      table, then the last record updated on its own. */
  lemma SetStatusSnoc(rows: seq<Enrollment>, u: UserId, c: CourseId, st: Status)
    requires |rows| > 0
    ensures var n := |rows| - 1;
            SetStatus(rows, u, c, st)
            == SetStatus(rows[..n], u, c, st) + [if Matches(rows[n], u, c) then rows[n].(status := st) else rows[n]]
  {
  }

  /** `StatusesOf` of a table with one more record, for one key. */
  lemma StatusesOfSnoc(rows: seq<Enrollment>, e: Enrollment, u: UserId, c: CourseId)
    ensures StatusesOf(rows + [e], u, c) == StatusesOf(rows, u, c) + (if Matches(e, u, c) then [e.status] else [])
  {
    assert (rows + [e])[..|rows|] == rows;
  }

  lemma {:induction false} SetStatusOtherKey(rows: seq<Enrollment>, u: UserId, c: CourseId, st: Status,
                                             u': UserId, c': CourseId)
    requires (u', c') != (u, c)
    ensures StatusesOf(SetStatus(rows, u, c, st), u', c') == StatusesOf(rows, u', c')
  {
    if |rows| > 0 {
      var n := |rows| - 1;
      SetStatusOtherKey(rows[..n], u, c, st, u', c');
      var x' := if Matches(rows[n], u, c) then rows[n].(status := st) else rows[n];
      SetStatusSnoc(rows, u, c, st);
      StatusesOfSnoc(SetStatus(rows[..n], u, c, st), x', u', c');
    }
  }

  /** One more record changes the count of (u, c) by whether it matches. */
  lemma CountSnoc(rows: seq<Enrollment>, e: Enrollment, u: UserId, c: CourseId)
    ensures Count(rows + [e], u, c) == Count(rows, u, c) + (if Matches(e, u, c) then 1 else 0)
  {
    StatusesOfSnoc(rows, e, u, c);
  }

  /** The update keeps the number of records keyed (u, c). */
  lemma {:induction false} SetStatusSameCount(rows: seq<Enrollment>, u: UserId, c: CourseId, st: Status)
    ensures Count(SetStatus(rows, u, c, st), u, c) == Count(rows, u, c)
  {
    if |rows| > 0 {
      var n := |rows| - 1;
      SetStatusSameCount(rows[..n], u, c, st);
      var x' := if Matches(rows[n], u, c) then rows[n].(status := st) else rows[n];
      SetStatusSnoc(rows, u, c, st);
      CountSnoc(SetStatus(rows[..n], u, c, st), x', u, c);
    }
  }

  /** One more record that reads `st` if it is keyed (u, c) keeps every
      status of (u, c) equal to `st`. */
  lemma AllStatusesSnoc(rows: seq<Enrollment>, e: Enrollment, u: UserId, c: CourseId, st: Status)
    requires forall x :: x in StatusesOf(rows, u, c) ==> x == st
    requires Matches(e, u, c) ==> e.status == st
    ensures forall x :: x in StatusesOf(rows + [e], u, c) ==> x == st
  {
    StatusesOfSnoc(rows, e, u, c);
  }

  /** After the update every record keyed (u, c) reads `st`. */
  lemma {:induction false} SetStatusSameKey(rows: seq<Enrollment>, u: UserId, c: CourseId, st: Status)
    ensures forall x :: x in StatusesOf(SetStatus(rows, u, c, st), u, c) ==> x == st
  {
    if |rows| > 0 {
      var n := |rows| - 1;
      SetStatusSameKey(rows[..n], u, c, st);
      var x' := if Matches(rows[n], u, c) then rows[n].(status := st) else rows[n];
      SetStatusSnoc(rows, u, c, st);
      AllStatusesSnoc(SetStatus(rows[..n], u, c, st), x', u, c, st);
    }
  }

  /** Everything the update of (u, c) to `st` does to the per-key view of the
      table: the records keyed (u, c) keep their number and all read `st`;
      every other key reads exactly as before. */
  lemma SetStatusEffect(rows: seq<Enrollment>, u: UserId, c: CourseId, st: Status)
    ensures Count(SetStatus(rows, u, c, st), u, c) == Count(rows, u, c)
    ensures SelectSingle(rows, u, c).Some? ==> SelectSingle(SetStatus(rows, u, c, st), u, c) == Some(st)
    ensures UniqueKeys(rows) ==> UniqueKeys(SetStatus(rows, u, c, st))
    ensures forall x :: x in StatusesOf(SetStatus(rows, u, c, st), u, c) ==> x == st
    ensures forall u', c' :: (u', c') != (u, c) ==>
              StatusesOf(SetStatus(rows, u, c, st), u', c') == StatusesOf(rows, u', c')
  {
    SetStatusSameCount(rows, u, c, st);
    SetStatusSameKey(rows, u, c, st);
    var ss := StatusesOf(SetStatus(rows, u, c, st), u, c);
    if |ss| == 1 {
      assert ss[0] in ss;
    }
    forall u', c' | (u', c') != (u, c)
      ensures StatusesOf(SetStatus(rows, u, c, st), u', c') == StatusesOf(rows, u', c')
    {
      SetStatusOtherKey(rows, u, c, st, u', c');
    }
    if UniqueKeys(rows) {
      forall u', c' ensures Count(SetStatus(rows, u, c, st), u', c') <= 1 {
        assert Count(rows, u', c') <= 1;
        if (u', c') != (u, c) {
          assert StatusesOf(SetStatus(rows, u, c, st), u', c') == StatusesOf(rows, u', c');
        }
      }
    }
  }

  datatype StartResult = StartResult(store: Store, updated: bool)

  /** The conditional `not_started -> ongoing` step of "get started": read the
      record's status with `.single()` and write `ongoing` only when it read
      `not_started`. `fault` stands for a failure of either the read or the
      update: either one skips the write. */
  function Start(s: Store, u: UserId, c: CourseId, fault: Option<ErrorCode>): (r: StartResult)
    ensures r.updated <==> fault.None? && SelectSingle(s.enrollments, u, c) == Some(NotStarted)
    ensures !r.updated ==> r.store == s
    ensures r.updated ==> SelectSingle(r.store.enrollments, u, c) == Some(Ongoing)
    ensures r.store.courses == s.courses
    ensures forall u', c' :: (u', c') != (u, c) ==>
              StatusesOf(r.store.enrollments, u', c') == StatusesOf(s.enrollments, u', c')
    ensures SelectSingle(s.enrollments, u, c).Some? ==>
              SelectSingle(r.store.enrollments, u, c).Some? &&
              Rank(SelectSingle(s.enrollments, u, c).value) <= Rank(SelectSingle(r.store.enrollments, u, c).value)
    ensures Valid(s) ==> Valid(r.store)
  {
    if fault.None? && SelectSingle(s.enrollments, u, c) == Some(NotStarted) then
      SetStatusEffect(s.enrollments, u, c, Ongoing);
      StartResult(s.(enrollments := SetStatus(s.enrollments, u, c, Ongoing)), true)
    else
      StartResult(s, false)
  }

  /** A second "get started" after a successful one changes nothing,
      whatever the second update would have reported. */
  lemma StartIsIdempotent(s: Store, u: UserId, c: CourseId, f1: Option<ErrorCode>, f2: Option<ErrorCode>)
    requires Start(s, u, c, f1).updated
    ensures Start(Start(s, u, c, f1).store, u, c, f2) == StartResult(Start(s, u, c, f1).store, false)
  {
  }

  lemma HasCourseTail(courses: seq<Course>, id: CourseId)
    requires HasCourse(courses, id) && courses[0].id != id
    ensures HasCourse(courses[1..], id)
  {
  }

  /** The catalog entry with the given id. */
  function CourseById(courses: seq<Course>, id: CourseId): (c: Course)
    requires HasCourse(courses, id)
    ensures c in courses && c.id == id
  {
    if courses[0].id == id then courses[0]
    else
      HasCourseTail(courses, id);
      CourseById(courses[1..], id)
  }

  /** The joined row of one record when it is user `u`'s, else nothing. */
  function Joined(courses: seq<Course>, e: Enrollment, u: UserId): seq<EnrollmentRow>
    requires HasCourse(courses, e.course)
  {
    if e.user == u then [EnrollmentRow(e.course, e.status, CourseById(courses, e.course))] else []
  }

  /** The enrollments of user `u`, each joined with its course, in table
      order. The join relies on the foreign key. */
  function FetchEnrollments(courses: seq<Course>, rows: seq<Enrollment>, u: UserId): (r: seq<EnrollmentRow>)
    requires forall i :: 0 <= i < |rows| ==> HasCourse(courses, rows[i].course)
    ensures forall k :: 0 <= k < |r| ==>
              r[k].course in courses && r[k].course.id == r[k].courseId &&
              r[k].status in StatusesOf(rows, u, r[k].courseId)
  {
    if |rows| == 0 then []
    else
      var n := |rows| - 1;
      var prefix := FetchEnrollments(courses, rows[..n], u);
      var last := Joined(courses, rows[n], u);
      assert forall k :: 0 <= k < |prefix| ==> (prefix + last)[k] == prefix[k];
      prefix + last
  }

  /** Every enrollment record of `u` shows up in the joined rows, with its
      course id and its status. */
  lemma {:induction false} FetchEnrollmentsCovers(courses: seq<Course>, rows: seq<Enrollment>, u: UserId)
    requires forall i :: 0 <= i < |rows| ==> HasCourse(courses, rows[i].course)
    ensures forall c, st :: st in StatusesOf(rows, u, c) ==>
              exists k :: 0 <= k < |FetchEnrollments(courses, rows, u)| &&
                          FetchEnrollments(courses, rows, u)[k].courseId == c &&
                          FetchEnrollments(courses, rows, u)[k].status == st
  {
    if |rows| > 0 {
      var n := |rows| - 1;
      FetchEnrollmentsCovers(courses, rows[..n], u);
      var prefix := FetchEnrollments(courses, rows[..n], u);
      var r := FetchEnrollments(courses, rows, u);
      var last := Joined(courses, rows[n], u);
      assert r == prefix + last;
      forall c, st | st in StatusesOf(rows, u, c)
        ensures exists k :: 0 <= k < |r| && r[k].courseId == c && r[k].status == st
      {
        if st in StatusesOf(rows[..n], u, c) {
          var k :| 0 <= k < |prefix| && prefix[k].courseId == c && prefix[k].status == st;
          assert r[k] == prefix[k];
        } else {
          assert StatusesOf(rows, u, c)
                 == StatusesOf(rows[..n], u, c) + (if Matches(rows[n], u, c) then [rows[n].status] else []);
          assert Matches(rows[n], u, c) && st == rows[n].status;
          assert r[|prefix|] == last[0];
        }
      }
      assert forall c, st :: st in StatusesOf(rows, u, c) ==>
              exists k :: 0 <= k < |FetchEnrollments(courses, rows, u)| &&
                          FetchEnrollments(courses, rows, u)[k].courseId == c &&
                          FetchEnrollments(courses, rows, u)[k].status == st;
    } else {
      assert forall c :: StatusesOf(rows, u, c) == [];
    }
  }

  /** The joined rows of a table with one more record. */
  lemma FetchEnrollmentsAppend(courses: seq<Course>, rows: seq<Enrollment>, u: UserId)
    requires |rows| > 0
    requires forall i :: 0 <= i < |rows| ==> HasCourse(courses, rows[i].course)
    ensures var n := |rows| - 1;
            FetchEnrollments(courses, rows, u) == FetchEnrollments(courses, rows[..n], u) + Joined(courses, rows[n], u)
  {
  }

  /** The records of user `u`, in table order. */
  function UserRows(rows: seq<Enrollment>, u: UserId): (r: seq<Enrollment>)
    ensures |r| <= |rows|
    ensures forall k :: 0 <= k < |r| ==> r[k].user == u
  {
    if |rows| == 0 then []
    else
      var n := |rows| - 1;
      UserRows(rows[..n], u) + (if rows[n].user == u then [rows[n]] else [])
  }

  /** The fetch returns exactly one joined row per record of the user, in
      table order, with that record's course id and status. */
  lemma {:induction false} FetchIsPointwise(courses: seq<Course>, rows: seq<Enrollment>, u: UserId)
    requires forall i :: 0 <= i < |rows| ==> HasCourse(courses, rows[i].course)
    ensures var r := FetchEnrollments(courses, rows, u);
            var ur := UserRows(rows, u);
            |r| == |ur| &&
            forall k :: 0 <= k < |r| ==> r[k].courseId == ur[k].course && r[k].status == ur[k].status
  {
    if |rows| > 0 {
      var n := |rows| - 1;
      FetchIsPointwise(courses, rows[..n], u);
      FetchEnrollmentsAppend(courses, rows, u);
    }
  }

  /** The statuses of the joined rows for course `c`, in order. */
  function RowStatuses(r: seq<EnrollmentRow>, c: CourseId): seq<Status>
  {
    if |r| == 0 then []
    else
      var n := |r| - 1;
      RowStatuses(r[..n], c) + (if r[n].courseId == c then [r[n].status] else [])
  }

  lemma RowStatusesAppend(a: seq<EnrollmentRow>, b: seq<EnrollmentRow>, c: CourseId)
    requires |b| <= 1
    ensures RowStatuses(a + b, c) == RowStatuses(a, c) + RowStatuses(b, c)
  {
    if |b| == 1 {
      assert (a + b)[..|a|] == a;
    } else {
      assert a + b == a;
    }
  }

  /** The joined rows for course `c` carry exactly the statuses of the
      user's records for `c`. */
  lemma {:induction false} FetchStatusesAgree(courses: seq<Course>, rows: seq<Enrollment>, u: UserId, c: CourseId)
    requires forall i :: 0 <= i < |rows| ==> HasCourse(courses, rows[i].course)
    ensures RowStatuses(FetchEnrollments(courses, rows, u), c) == StatusesOf(rows, u, c)
  {
    if |rows| > 0 {
      var n := |rows| - 1;
      FetchStatusesAgree(courses, rows[..n], u, c);
      FetchEnrollmentsAppend(courses, rows, u);
      RowStatusesAppend(FetchEnrollments(courses, rows[..n], u), Joined(courses, rows[n], u), c);
    }
  }

  lemma {:induction false} RowStatusesNonEmpty(r: seq<EnrollmentRow>, c: CourseId, j: int)
    requires 0 <= j < |r| && r[j].courseId == c
    ensures |RowStatuses(r, c)| >= 1
  {
    var n := |r| - 1;
    if j < n {
      RowStatusesNonEmpty(r[..n], c, j);
    }
  }

  /** Two joined rows for the same course give two statuses. */
  lemma {:induction false} RowStatusesTwoRows(r: seq<EnrollmentRow>, c: CourseId, j: int, k: int)
    requires 0 <= j < k < |r| && r[j].courseId == c && r[k].courseId == c
    ensures |RowStatuses(r, c)| >= 2
  {
    var n := |r| - 1;
    if k == n {
      RowStatusesNonEmpty(r[..n], c, j);
    } else {
      RowStatusesTwoRows(r[..n], c, j, k);
    }
  }

  /** With a single record for (u, c), exactly one joined row names `c`. */
  lemma FetchSingleRow(courses: seq<Course>, rows: seq<Enrollment>, u: UserId, c: CourseId, st: Status)
    requires forall i :: 0 <= i < |rows| ==> HasCourse(courses, rows[i].course)
    requires StatusesOf(rows, u, c) == [st]
    ensures var r := FetchEnrollments(courses, rows, u);
            exists k :: 0 <= k < |r| && r[k].courseId == c && r[k].status == st &&
                        forall j :: 0 <= j < |r| && r[j].courseId == c ==> j == k
  {
    var r := FetchEnrollments(courses, rows, u);
    FetchEnrollmentsCovers(courses, rows, u);
    FetchStatusesAgree(courses, rows, u, c);
    assert st in StatusesOf(rows, u, c);
    var k :| 0 <= k < |r| && r[k].courseId == c && r[k].status == st;
    forall j | 0 <= j < |r| && r[j].courseId == c
      ensures j == k
    {
      if j < k {
        RowStatusesTwoRows(r, c, j, k);
      } else if k < j {
        RowStatusesTwoRows(r, c, k, j);
      }
    }
  }

  /** Pointwise relation between joined rows before and after an update. */
  ghost predicate UpdatedRows(before: seq<EnrollmentRow>, after: seq<EnrollmentRow>, c: CourseId, st: Status)
  {
    |after| == |before| &&
    forall k :: 0 <= k < |before| ==>
      after[k] == (if before[k].courseId == c then before[k].(status := st) else before[k])
  }

  lemma UpdatedRowsAppend(b1: seq<EnrollmentRow>, a1: seq<EnrollmentRow>, b2: seq<EnrollmentRow>,
                          a2: seq<EnrollmentRow>, c: CourseId, st: Status)
    requires UpdatedRows(b1, a1, c, st) && UpdatedRows(b2, a2, c, st)
    ensures UpdatedRows(b1 + b2, a1 + a2, c, st)
  {
  }

  /** Updating one record of (u, c) changes its joined row in status only. */
  lemma LastRowUpdated(courses: seq<Course>, e: Enrollment, e': Enrollment, u: UserId, c: CourseId, st: Status)
    requires HasCourse(courses, e.course)
    requires e'.user == e.user && e'.course == e.course
    requires e'.status == (if Matches(e, u, c) then st else e.status)
    ensures UpdatedRows(Joined(courses, e, u), Joined(courses, e', u), c, st)
  {
  }

  /** The joined rows after an update of (u, c) are the joined rows before,
      with the status of exactly the rows for course `c` replaced. */
  lemma {:induction false} FetchAfterSetStatus(courses: seq<Course>, rows: seq<Enrollment>, u: UserId,
                                               c: CourseId, st: Status)
    requires forall i :: 0 <= i < |rows| ==> HasCourse(courses, rows[i].course)
    ensures UpdatedRows(FetchEnrollments(courses, rows, u),
                        FetchEnrollments(courses, SetStatus(rows, u, c, st), u), c, st)
  {
    if |rows| > 0 {
      var n := |rows| - 1;
      var rows' := SetStatus(rows, u, c, st);
      FetchAfterSetStatus(courses, rows[..n], u, c, st);
      SetStatusSnoc(rows, u, c, st);
      assert rows'[..n] == SetStatus(rows[..n], u, c, st);
      FetchEnrollmentsAppend(courses, rows, u);
      FetchEnrollmentsAppend(courses, rows', u);
      LastRowUpdated(courses, rows[n], rows'[n], u, c, st);
      UpdatedRowsAppend(FetchEnrollments(courses, rows[..n], u), FetchEnrollments(courses, rows'[..n], u),
                        Joined(courses, rows[n], u), Joined(courses, rows'[n], u), c, st);
    }
  }
}

=== FILE: next_lesson.dfy ===
/** The next-lesson resolver of "get started" / "continue": from the
    course's modules, its lessons in the order the lessons query returns them
    (ascending lesson `order_index` across all modules, taken as given), and
    the user's completion records, pick the lesson to navigate to. Each fetch
    arrives as an `Option`: `None` is a failed or empty (`null`) response. */
module NextLesson {
  import opened Wrappers
  import opened Domain

  /** Index of the first lesson not in `done`, if there is one. */
  function FirstIncomplete(lessons: seq<LessonId>, done: set<LessonId>): (r: Option<nat>)
    ensures r.Some? ==> r.value < |lessons| && lessons[r.value] !in done
    ensures r.Some? ==> forall j :: 0 <= j < r.value ==> lessons[j] in done
    ensures r.None? ==> forall j :: 0 <= j < |lessons| ==> lessons[j] in done
  {
    if |lessons| == 0 then None
    else if lessons[0] !in done then Some(0)
    else
      match FirstIncomplete(lessons[1..], done)
      case None => None
      case Some(k) => Some(k + 1)
  }

  /** The set of completed lesson ids built from the progress query; a failed
      or `null` response counts as nothing completed. */
  function CompletedSet(progress: Option<seq<LessonId>>): (r: set<LessonId>)
    ensures progress.None? ==> r == {}
    ensures progress.Some? ==> forall l :: l in r <==> l in progress.value
  {
    if progress.Some? then set l | l in progress.value else {}
  }

  /** No lesson id is the empty string (which JavaScript treats as false). */
  predicate NoBlankIds(lessons: seq<LessonId>)
  {
    forall j :: 0 <= j < |lessons| ==> lessons[j] != ""
  }

  /** `x` is, at some position, a lesson not in `done` preceded only by done lessons. */
  ghost predicate IsFirstIncomplete(lessons: seq<LessonId>, done: set<LessonId>, x: LessonId)
  {
    exists k :: 0 <= k < |lessons| && lessons[k] == x && x !in done &&
                (forall j :: 0 <= j < k ==> lessons[j] in done)
  }

  /** The navigation target of "get started" / "continue". The last step
      picks `nextLesson?.id || allLessons[0].id` and navigates only when that
      id is truthy, so a blank id counts as no id. */
  function Resolve(modules: Option<seq<ModuleId>>, lessons: Option<seq<LessonId>>,
                   progress: Option<seq<LessonId>>): (r: Option<LessonId>)
    ensures modules.None? || |modules.value| == 0 ==> r.None?
    ensures lessons.None? || |lessons.value| == 0 ==> r.None?
    ensures r.Some? ==> r.value in lessons.value && r.value != ""
    ensures modules.Some? && |modules.value| > 0 && lessons.Some? && |lessons.value| > 0 &&
            NoBlankIds(lessons.value) ==>
              r.Some? &&
              (IsFirstIncomplete(lessons.value, CompletedSet(progress), r.value) ||
               ((forall j :: 0 <= j < |lessons.value| ==> lessons.value[j] in CompletedSet(progress)) &&
                r.value == lessons.value[0]))
    ensures modules.Some? && |modules.value| > 0 && lessons.Some? && |lessons.value| > 0 &&
            progress.None? && lessons.value[0] != "" ==>
              r == Some(lessons.value[0])
  {
    if modules.None? || |modules.value| == 0 then None
    else if lessons.None? || |lessons.value| == 0 then None
    else
      var ls := lessons.value;
      var found := FirstIncomplete(ls, CompletedSet(progress));
      var id := if found.Some? && ls[found.value] != "" then ls[found.value] else ls[0];
      if id != "" then Some(id) else None
  }

  /** When some lesson is still open, the resolver never sends the user to a
      completed one, and it picks the first open lesson. */
  lemma ResolvePrefersOpenLessons(modules: Option<seq<ModuleId>>, lessons: seq<LessonId>,
                                  progress: Option<seq<LessonId>>, j: nat)
    requires modules.Some? && |modules.value| > 0 && NoBlankIds(lessons)
    requires j < |lessons| && lessons[j] !in CompletedSet(progress)
    ensures Resolve(modules, Some(lessons), progress).Some?
    ensures Resolve(modules, Some(lessons), progress).value !in CompletedSet(progress)
    ensures IsFirstIncomplete(lessons, CompletedSet(progress), Resolve(modules, Some(lessons), progress).value)
  {
  }

  /** Completing the lesson the resolver chose moves the next choice strictly
      forward in the sequence, or, once everything is done, back to the start. */
  lemma CompletingTargetAdvances(lessons: seq<LessonId>, done: set<LessonId>)
    requires FirstIncomplete(lessons, done).Some?
    ensures var k := FirstIncomplete(lessons, done).value;
            var next := FirstIncomplete(lessons, done + {lessons[k]});
            next.None? || next.value > k
  {
  }

  /** Only completion records for this course's lessons matter: the progress
      query's restriction to the fetched lesson ids does not change the result. */
  lemma FirstIncompleteIgnoresOtherLessons(lessons: seq<LessonId>, d1: set<LessonId>, d2: set<LessonId>)
    requires forall j :: 0 <= j < |lessons| ==> (lessons[j] in d1 <==> lessons[j] in d2)
    ensures FirstIncomplete(lessons, d1) == FirstIncomplete(lessons, d2)
  {
  }

  lemma ResolveIgnoresOtherLessons(modules: Option<seq<ModuleId>>, lessons: seq<LessonId>,
                                   p1: seq<LessonId>, p2: seq<LessonId>)
    requires forall j :: 0 <= j < |lessons| ==> (lessons[j] in p1 <==> lessons[j] in p2)
    ensures Resolve(modules, Some(lessons), Some(p1)) == Resolve(modules, Some(lessons), Some(p2))
  {
  }

  /** An example: modules M1 and M2, lessons L1, L2 (in M1) and L3 (in M2)
      with lesson `order_index` 1, 2 and 3, so the query returns L1, L2, L3.
      With L1 done the user goes to L2, with all done to L1, and with no
      lessons nowhere. If L3 is instead lesson 1 of M2, the query orders by
      the lesson's own index and returns L1, L3, L2, and with L1 done the
      user goes to L3. */
  lemma WorkedExample()
    ensures Resolve(Some(["M1", "M2"]), Some(["L1", "L2", "L3"]), Some(["L1"])) == Some("L2")
    ensures Resolve(Some(["M1", "M2"]), Some(["L1", "L2", "L3"]), Some(["L1", "L2", "L3"])) == Some("L1")
    ensures Resolve(Some(["M1", "M2"]), Some([]), Some([])) == None
    ensures Resolve(Some(["M1", "M2"]), Some(["L1", "L3", "L2"]), Some(["L1"])) == Some("L3")
  {
  }
}

=== FILE: signin.dfy ===
/** The sign-in form: its submit check, the classification of the auth
    service's error (an unconfirmed e-mail address offers a resend), and the
    resend-confirmation action. Replies of the auth service are parameters
    standing for any reply it may give. */
module SignIn {
  import opened Wrappers

  const FillAllFields := "Please fill all fields."
  const ConfirmEmailFirst :=
    "Please confirm your email address before signing in. Check your inbox for the confirmation email."
  const SignInFailed := "Sign in failed. Please try again."
  const SigningIn := "Signing in..."
  const SignInError := "An error occurred during sign in."
  const EnterEmailFirst := "Please enter your email address first."
  const ConfirmationSent := "Confirmation email sent! Please check your inbox."
  const ResendFailed := "Failed to resend confirmation email. Please try again."

  /** `sub` occurs in `s` starting at position `i`. */
  predicate OccursAt(s: string, sub: string, i: int)
  {
    0 <= i && i + |sub| <= |s| && s[i..i + |sub|] == sub
  }

  /** JavaScript's `s.includes(sub)`: `sub` occurs in `s` at some position. */
  function Contains(s: string, sub: string): (b: bool)
    ensures b <==> exists i :: OccursAt(s, sub, i)
  {
    if |sub| <= |s| && s[..|sub|] == sub then
      assert OccursAt(s, sub, 0);
      true
    else if |s| == 0 then
      assert forall i :: !OccursAt(s, sub, i);
      false
    else
      ContainsShift(s, sub);
      Contains(s[1..], sub)
  }

  /** An occurrence in `s` after position 0 is an occurrence in `s[1..]`, one
      position earlier, and back. */
  lemma ContainsShift(s: string, sub: string)
    requires |s| > 0 && !OccursAt(s, sub, 0)
    ensures (exists i :: OccursAt(s, sub, i)) <==> (exists i :: OccursAt(s[1..], sub, i))
  {
    if exists i :: OccursAt(s, sub, i) {
      var i :| OccursAt(s, sub, i);
      assert s[1..][i - 1..i - 1 + |sub|] == s[i..i + |sub|];
      assert OccursAt(s[1..], sub, i - 1);
    }
    if exists i :: OccursAt(s[1..], sub, i) {
      var i :| OccursAt(s[1..], sub, i);
      assert s[i + 1..i + 1 + |sub|] == s[1..][i..i + |sub|];
      assert OccursAt(s, sub, i + 1);
    }
  }

  /** The error messages the auth service uses for an unconfirmed address. */
  function IsUnconfirmed(message: string): (b: bool)
    ensures b <==> (exists i :: OccursAt(message, "Email not confirmed", i)) ||
                   (exists i :: OccursAt(message, "email_not_confirmed", i))
  {
    Contains(message, "Email not confirmed") || Contains(message, "email_not_confirmed")
  }

  /** What the page shows: messages, the two in-flight flags and whether the
      resend option is offered. */
  datatype Page = Page(errorMsg: Option<string>, infoMsg: Option<string>, loading: bool,
                       resending: bool, showResend: bool)

  /** What the sign-in call may come back with: an error reply, an exception
      (its message, empty when it has none), or success. */
  datatype Reply = Rejected(message: string) | Threw(message: string) | Accepted

  datatype Submitted = Submitted(page: Page, authCalled: bool, redirectToDashboard: bool)

  /** `handleSubmit`. `reply` is what the sign-in call returns if it is made;
      `sessionStored` is whether the follow-up session read finds one. */
  function Submit(email: string, password: string, prior: Page, reply: Reply, sessionStored: bool): (r: Submitted)
    ensures r.authCalled <==> email != "" && password != ""
    ensures !r.authCalled ==> r.page == prior.(errorMsg := Some(FillAllFields), infoMsg := None) && !r.redirectToDashboard
    ensures r.authCalled && reply.Rejected? && IsUnconfirmed(reply.message) ==>
              r.page == prior.(errorMsg := Some(ConfirmEmailFirst), infoMsg := None, loading := false, showResend := true)
    ensures r.authCalled && reply.Rejected? && !IsUnconfirmed(reply.message) ==>
              r.page == prior.(errorMsg := Some(reply.message), infoMsg := None, loading := false)
    ensures r.authCalled && reply.Threw? ==>
              r.page == prior.(errorMsg := Some(if reply.message == "" then SignInError else reply.message),
                               infoMsg := None, loading := false)
    ensures r.authCalled && reply.Accepted? && !sessionStored ==>
              r.page == prior.(errorMsg := Some(SignInFailed), infoMsg := None, loading := false)
    ensures r.redirectToDashboard <==> r.authCalled && reply.Accepted? && sessionStored
    ensures r.redirectToDashboard ==> r.page == prior.(errorMsg := None, infoMsg := Some(SigningIn), loading := true)
    ensures r.page.resending == prior.resending
    ensures r.page.showResend != prior.showResend ==> r.page.showResend && reply.Rejected? && IsUnconfirmed(reply.message)
    ensures !r.redirectToDashboard ==> !r.page.loading || (!r.authCalled && prior.loading)
  {
    var cleared := prior.(errorMsg := None, infoMsg := None);
    if email == "" || password == "" then Submitted(cleared.(errorMsg := Some(FillAllFields)), false, false)
    else
      match reply
      case Rejected(m) =>
        if IsUnconfirmed(m) then
          Submitted(cleared.(errorMsg := Some(ConfirmEmailFirst), showResend := true, loading := false), true, false)
        else
          Submitted(cleared.(errorMsg := Some(m), loading := false), true, false)
      case Threw(m) =>
        Submitted(cleared.(errorMsg := Some(if m == "" then SignInError else m), loading := false), true, false)
      case Accepted =>
        if !sessionStored then Submitted(cleared.(errorMsg := Some(SignInFailed), loading := false), true, false)
        else Submitted(cleared.(infoMsg := Some(SigningIn), loading := true), true, true)
  }

  /** What the resend call may come back with. */
  datatype ResendReply = ResendRejected(message: string) | ResendSent | ResendThrew

  /** One run of the resend action: the page while the call is outstanding
      (if it is made) and afterwards. */
  datatype Resent = Resent(during: Option<Page>, page: Page)

  /** `handleResendConfirmation`. */
  function Resend(email: string, prior: Page, reply: ResendReply): (r: Resent)
    ensures r.during.None? <==> email == ""
    ensures email == "" ==> r.page == prior.(errorMsg := Some(EnterEmailFirst))
    ensures r.during.Some? ==> r.during.value == prior.(errorMsg := None, infoMsg := None, resending := true)
    ensures email != "" ==> !r.page.resending
    ensures email != "" && reply == ResendSent ==>
              r.page == prior.(errorMsg := None, infoMsg := Some(ConfirmationSent), resending := false, showResend := false)
    ensures email != "" && reply.ResendRejected? ==>
              r.page == prior.(errorMsg := Some(reply.message), infoMsg := None, resending := false)
    ensures email != "" && reply == ResendThrew ==>
              r.page == prior.(errorMsg := Some(ResendFailed), infoMsg := None, resending := false)
    ensures r.page.loading == prior.loading
  {
    if email == "" then Resent(None, prior.(errorMsg := Some(EnterEmailFirst)))
    else
      var busy := prior.(resending := true, errorMsg := None, infoMsg := None);
      var done := match reply
        case ResendRejected(m) => busy.(errorMsg := Some(m))
        case ResendSent => busy.(infoMsg := Some(ConfirmationSent), showResend := false)
        case ResendThrew => busy.(errorMsg := Some(ResendFailed));
      Resent(Some(busy), done.(resending := false))
  }

  /** The two spellings the service uses are both recognised wherever they
      occur in the message. */
  lemma UnconfirmedSpellingsRecognised(before: string, after: string)
    ensures IsUnconfirmed(before + "Email not confirmed" + after)
    ensures IsUnconfirmed(before + "email_not_confirmed" + after)
  {
    var s1 := before + "Email not confirmed" + after;
    assert s1[|before|..|before| + |"Email not confirmed"|] == "Email not confirmed";
    assert OccursAt(s1, "Email not confirmed", |before|);
    var s2 := before + "email_not_confirmed" + after;
    assert s2[|before|..|before| + |"email_not_confirmed"|] == "email_not_confirmed";
    assert OccursAt(s2, "email_not_confirmed", |before|);
  }

  /** An unconfirmed-address error offers the resend option; resending then
      reports success and withdraws the option, and the page is no longer busy. */
  lemma UnconfirmedThenResend(email: string, password: string, prior: Page, message: string)
    requires email != "" && password != "" && IsUnconfirmed(message)
    ensures var signedIn := Submit(email, password, prior, Rejected(message), false).page;
            signedIn.showResend &&
            var resent := Resend(email, signedIn, ResendSent).page;
            !resent.showResend && !resent.resending && !resent.loading &&
            resent.infoMsg == Some(ConfirmationSent) && resent.errorMsg.None?
  {
  }
}

=== FILE: signup.dfy ===
/** The sign-up form: the order of its submit checks, the mapping of the
    auth service's reply to the error and info messages, and the two
    password indicators under the confirm field. The auth service's reply is
    a parameter standing for any reply it may give. */
module SignUp {
  import opened Wrappers

  const FillAllFields := "Please fill all fields."
  const PasswordsDiffer := "Passwords do not match."
  const CheckYourEmail := "Account created! Please check your email to confirm your account."
  const Redirecting := "Account created. Redirecting to dashboard..."
  const SignUpFailed := "An error occurred during signup."

  datatype Form = Form(email: string, fullName: string, password: string, confirm: string)

  /** The messages and the loading flag the form shows. */
  datatype Feedback = Feedback(errorMsg: Option<string>, infoMsg: Option<string>, loading: bool)

  /** What the sign-up call may come back with: an error reply, an exception
      (its message, empty when it has none), or success with or without a
      session. */
  datatype Reply = Rejected(message: string) | Threw(message: string) | Accepted(hasSession: bool)

  datatype Submitted = Submitted(feedback: Feedback, authCalled: bool, redirectToDashboard: bool)

  predicate AllFilled(f: Form)
  {
    f.email != "" && f.fullName != "" && f.password != "" && f.confirm != ""
  }

  /** `handleSubmit`. `reply` is what the sign-up call returns if it is made;
      `sessionStored` is whether the follow-up session read finds one. */
  function Submit(f: Form, prior: Feedback, reply: Reply, sessionStored: bool): (r: Submitted)
    ensures r.authCalled <==> AllFilled(f) && f.password == f.confirm
    ensures !AllFilled(f) ==> r.feedback.errorMsg == Some(FillAllFields)
    ensures AllFilled(f) && f.password != f.confirm ==> r.feedback.errorMsg == Some(PasswordsDiffer)
    ensures !r.authCalled ==> r.feedback.infoMsg.None? && r.feedback.loading == prior.loading && !r.redirectToDashboard
    ensures r.authCalled && reply.Rejected? ==>
              r.feedback == Feedback(Some(reply.message), None, false) && !r.redirectToDashboard
    ensures r.authCalled && reply.Threw? ==>
              r.feedback == Feedback(Some(if reply.message == "" then SignUpFailed else reply.message), None, false)
    ensures r.authCalled && reply.Accepted? && !(reply.hasSession && sessionStored) ==>
              r.feedback == Feedback(None, Some(CheckYourEmail), false)
    ensures r.redirectToDashboard <==> r.authCalled && reply == Accepted(true) && sessionStored
    ensures r.redirectToDashboard ==> r.feedback == Feedback(None, Some(Redirecting), true)
    ensures !(r.feedback.errorMsg.Some? && r.feedback.infoMsg.Some?)
  {
    if !AllFilled(f) then Submitted(Feedback(Some(FillAllFields), None, prior.loading), false, false)
    else if f.password != f.confirm then Submitted(Feedback(Some(PasswordsDiffer), None, prior.loading), false, false)
    else
      match reply
      case Rejected(m) => Submitted(Feedback(Some(m), None, false), true, false)
      case Threw(m) => Submitted(Feedback(Some(if m == "" then SignUpFailed else m), None, false), true, false)
      case Accepted(hasSession) =>
        if !hasSession || !sessionStored then Submitted(Feedback(None, Some(CheckYourEmail), false), true, false)
        else Submitted(Feedback(None, Some(Redirecting), true), true, true)
  }

  /** The "Passwords match" indicator. */
  predicate MatchShown(password: string, confirm: string)
  {
    confirm != "" && password == confirm
  }

  /** With every field filled, "Passwords match" is shown exactly when a
      submit would get past the password check and call the service. */
  lemma MatchIndicatorAgreesWithSubmit(f: Form, prior: Feedback, reply: Reply, sessionStored: bool)
    requires f.email != "" && f.fullName != "" && f.password != ""
    ensures MatchShown(f.password, f.confirm) <==> Submit(f, prior, reply, sessionStored).authCalled
  {
  }

  /** The idle-mismatch state right after the password or confirm field
      changes: the flag is cleared, and a later check is scheduled only when
      confirm is non-empty. */
  datatype IdleWatch = IdleWatch(idleMismatch: bool, checkScheduled: bool)

  function OnPasswordsChanged(password: string, confirm: string): (r: IdleWatch)
    ensures !r.idleMismatch
    ensures r.checkScheduled <==> confirm != ""
  {
    IdleWatch(false, confirm != "")
  }

  /** The flag the scheduled check sets when it fires. */
  function IdleCheck(password: string, confirm: string): (mismatch: bool)
    ensures confirm != "" ==> (mismatch <==> !MatchShown(password, confirm))
    ensures confirm == "" ==> (mismatch <==> password != "")
  {
    password != confirm
  }

  /** The "Passwords don't match" indicator. */
  predicate MismatchShown(confirm: string, idleMismatch: bool)
  {
    confirm != "" && idleMismatch
  }

  /** Once the change's effect has run, the two indicators never show
      together: not before the scheduled check fires, and not once it has
      fired on the same values. */
  lemma IndicatorsExclusive(password: string, confirm: string)
    ensures !MismatchShown(confirm, OnPasswordsChanged(password, confirm).idleMismatch)
    ensures !(MatchShown(password, confirm) && MismatchShown(confirm, IdleCheck(password, confirm)))
    ensures confirm != "" ==> MatchShown(password, confirm) != MismatchShown(confirm, IdleCheck(password, confirm))
  {
  }
}

=== FILE: wrappers.dfy ===
/** Failure-carrying datatypes used across the model: `Option` stands for a
    value the page's code may see as `null`/`undefined`, `Result` for a
    store operation that either succeeds or reports an error code. */
module Wrappers {

  datatype Option<+T> = None | Some(value: T)

  datatype Result<+T, +E> = Ok(value: T) | Err(error: E)
}
